=== FILE: README.md ===
# StockSync alert lifecycle — a Dafny model

StockSync polls a point-of-sale database for today's sales. It turns each sold
item into an *alert* that tells an operator to update the online store, and it
keeps each alert until the operator resolves it. This project models the
service's decision logic as pure Dafny functions and proves properties of them.

- **The alert store** (`alerts.dfy`, module `Alerts`). This models
  `server/services/pollingService.js`. The two in-memory lists `alerts` (live)
  and `history` (resolved) form an immutable `Store`. The model covers:
  - how a poll builds the identity of each fetched row;
  - `addAlert`, which drops an alert whose id is already live;
  - the batch loop of `checkForNewSales`;
  - `dismissAlert` and `markAsNotOnline`, which move one live alert to the
    end of the history;
  - the cron string of `setPollingInterval`.
- **The database guards** (`db.dfy`, module `Db`). This models
  `server/config/db.js`: the shallow settings merge, the skip rules of
  `connectDB`, mock mode, and the three branches of `query`. The connection
  pool is an opaque handle.
- **The routes** (`api.dfy`, module `Api`). This models `server/routes/api.js`:
  the dismiss route's 200/404 reply, the table-name guard of the two
  column-discovery routes and the SQL literal it protects, and the three
  independent steps of `POST /settings`.
- **The client pieces**:
  - `dashboard.dfy`: the urgency badge;
  - `analytics.dfy`: the summary fold;
  - `wizard.dfy`: the three-step configuration wizard and the request its
    Save button posts.
- **Helpers**: `results.dfy` (Option/Result), `decimal.dfy` (how JavaScript
  writes an integer as text, with its parser and the round trip),
  `jsvalue.dfy` (JavaScript values, truthiness, `String(v)`) and `text.dfy`
  (first index and count of a character).

Clocks, random numbers, whether a connection succeeds and what the database
answers are all parameters.

## Behaviours worth knowing

The model states what the code does. Several of its behaviours are easy to
miss:

- Ids are unique only among live alerts; a resolved id is admitted again by
  the next poll. Every poll re-reads all of today's rows
  (pollingService.js:57-61), and `addAlert` looks only at the live list
  (pollingService.js:93). After a dismissal the same row's id is therefore
  both live and in the history (`Alerts.ResolvedIdentityIsReadmitted`).
  This holds for rows with a truthy ENTRYORDER. Uniqueness within the live
  list (`Alerts.DistinctIds`) holds from the empty store and every transition
  keeps it.
- A row with a falsy ENTRYORDER gets a new random id on every poll
  (pollingService.js:66). Each poll therefore admits that sale again as a
  further live alert, even when nothing was resolved
  (`Alerts.RandomIdRowIsReadmitted`).
- The id joins its parts with dashes, so two different text rows can share an
  id (`Alerts.TextIdentityCollides`). For non-negative integer columns the id
  is injective (`Alerts.NumericIdentityInjective`).
- `setConfig` closes the old pool but keeps referring to it. If the reconnect
  then fails, later queries still go to the closed pool instead of failing
  with "Database not connected" (`Db.FailedReconnectKeepsClosedPool`).
- `POST /db/columns` checks `String(table)`. A request with no table name
  therefore passes the check and, once its pool connects, queries the table
  `'undefined'` (`Api.MissingTableIsQueriedAsUndefined`).
- Nothing on the server bounds the polling interval; only the wizard's number
  input keeps it in [1, 60] (`Wizard.SavedIntervalWithinBounds`).
  `POST /settings` writes any non-zero integer into the schedule string; an
  interval the cron library then rejects, such as a negative one, is outside
  the model (see "## Left out").
- Saving the wizard never changes where the server connects. Save is shown
  only on the last step, and `form.getFieldsValue()` without arguments
  returns only the fields mounted on the current step (antd's documented
  behaviour). The connection fields are therefore undefined at Save, JSON
  drops them, and the posted settings object holds only the fixed options
  (`Wizard.SaveKeepsConnectionTarget`).

## Model

| member | source | states |
|---|---|---|
| Alerts.IdentityDeterminesParts | server/services/pollingService.js:66 | With a truthy entry order and dash-free bill number and item id, two rows get the same id exactly when their rendered bill number, item id and entry order agree. The random fallback plays no part. |
| Alerts.NumericIdentityInjective | server/services/pollingService.js:66 | For non-negative integer BILLNO and ITEMID and a positive ENTRYORDER, equal ids mean equal columns, and equal columns mean equal ids. |
| Alerts.TextIdentityCollides | server/services/pollingService.js:66 | Two rows with different bill numbers can share an id when their text columns contain dashes. |
| Alerts.BatchAlerts | server/services/pollingService.js:64-78 | A fetched batch becomes one alert per row, in recordset order. Alert k has the identity of row k under its random draw, the row's bill number, its ITEMID as both sku and product name, its quantity and sale time, status pending, no resolution time, and the row itself as details. |
| Alerts.FindIndex | server/services/pollingService.js:102 | The search returns -1 exactly when no live alert has the id. Otherwise it returns the first position holding the id. |
| Alerts.AddAlert | server/services/pollingService.js:91-97 | If the id is already live, nothing changes. Otherwise the alert is appended at the end. The history is never touched, the id is live afterwards, and pairwise distinct live ids stay distinct. |
| Alerts.AdmitAll | server/services/pollingService.js:64-80 | Offering a batch one alert at a time leaves the history unchanged and keeps live ids pairwise distinct. |
| Alerts.FirstNewIds | server/services/pollingService.js:64-80 | An id is among the alerts a poll admits exactly when it occurs in the batch and is not already live. |
| Alerts.AdmitAllAppendsFirstNew | server/services/pollingService.js:63-80 | A poll appends, after the existing live alerts, exactly those batch positions whose id is neither live nor seen earlier in the batch. They keep recordset order. |
| Alerts.AdmitAllCovers | server/services/pollingService.js:64-80 | After a poll, every id of the batch is live. |
| Alerts.AdmitAllOfKnown | server/services/pollingService.js:93-96 | A batch whose ids are all live already leaves the store unchanged. |
| Alerts.FirstNewOfFreshDistinct | server/services/pollingService.js:64-80 | A batch with pairwise distinct ids, none of them live, is admitted whole and in order. |
| Alerts.CheckForNewSales | server/services/pollingService.js:54-88 | A failed query changes nothing. Otherwise the live list grows by exactly the batch's first occurrences of ids that are not live. The history never changes, and distinct live ids stay distinct. |
| Alerts.PollIsIdempotent | server/services/pollingService.js:57-66 | With every ENTRYORDER truthy, a second poll of the same rows adds nothing, whatever random draws the two polls make. |
| Alerts.RemoveFirstMatch | server/services/pollingService.js:108 | Splicing the first match out of a list with distinct ids leaves distinct ids, and the id is no longer live. |
| Alerts.Resolve | server/services/pollingService.js:101-125 | Resolving succeeds exactly when the id is live. On success, the first alert with that id is spliced out, and the same alert with the new status and time is appended to the history. On failure, nothing changes. The total of the two list lengths is unchanged, the history only grows at its end, and the id is no longer live. |
| Alerts.DismissAlert | server/services/pollingService.js:101-112 | Returns true exactly when the id is live. Then the history grows by one alert with that id, status `synced` and the given time, and the live list shrinks by one. Otherwise both lists are unchanged. |
| Alerts.MarkAsNotOnline | server/services/pollingService.js:114-125 | The same as DismissAlert, with status `not-online`. |
| Alerts.SecondResolutionFails | server/services/pollingService.js:101-125 | When live ids are distinct, a second resolution of the same id by either operation returns false and changes nothing. |
| Alerts.ResolveKeepsOthers | server/services/pollingService.js:107-108 | An alert with a different id is live after a resolution exactly when it was live before. |
| Alerts.EmptyStoreValid | server/services/pollingService.js:8-9 | The initial empty lists satisfy the distinct-ids invariant. |
| Alerts.ResolvedIdentityIsReadmitted | server/services/pollingService.js:57-112 | For a row with a truthy ENTRYORDER, after a poll and a dismissal of its alert, the next poll makes the dismissed id live again under any random draws, while it stays in the history. |
| Alerts.RandomIdRowIsReadmitted | server/services/pollingService.js:57-97 | A row with a falsy ENTRYORDER whose two random draws differ is admitted by both polls: two polls of that one row add two live alerts for the same sale. |
| Alerts.InitialScheduleIsFiveMinutes | server/services/pollingService.js:4 | The service starts with the schedule `*/5 * * * *`, which reads back as 5 minutes. |
| Alerts.SetPollingInterval | server/services/pollingService.js:31-33 | The schedule becomes `*/` followed by the minutes written as JavaScript writes the number, followed by ` * * * *`, and it reads back as exactly those minutes. The schedule change itself does not touch the store. |
| Db.ConnectDB | server/config/db.js:34-51 | Mock mode, or a missing server or database, leaves everything unchanged. Otherwise a successful connect installs the new pool. Nothing but the pool ever changes, and only to a pool that the connect produced. |
| Db.InitialConnectIsSkipped | server/config/db.js:7-16 | With the initial empty settings, connecting does nothing. |
| Db.Merge | server/config/db.js:56 | The merged settings have the keys of both objects. Patch keys take the patch's values, and all other keys keep their old values. |
| Db.MergeIdempotent | server/config/db.js:56 | Applying the same patch twice gives the same settings as applying it once. |
| Db.MergeReplacesNestedOptions | server/config/db.js:56 | A patch with `options` replaces the whole nested object, so keys missing from the patch's options are dropped. |
| Db.SetConfig | server/config/db.js:55-61 | The settings become the merge and mock mode is unchanged. A successful reconnect installs its pool. When the reconnect is skipped or fails, an existing pool stays referenced but closed, and a missing pool stays missing. |
| Db.SetMockMode | server/config/db.js:65-73 | Afterwards mock mode equals the argument and the settings are unchanged. Turning mock mode on leaves no pool. Turning it off reconnects. |
| Db.Query | server/config/db.js:77-89 | In mock mode the result is an empty recordset. Without a pool it is the failure "Database not connected". With a pool outside mock mode it is exactly the pool's answer, failures included. |
| Db.MockModeAnswersEmpty | server/config/db.js:65-83 | Once mock mode is on, every query text gets the same empty recordset, whatever the pool would answer. |
| Db.MockRoundTripForgetsPool | server/config/db.js:65-87 | Turning mock mode on and off again, with a failed reconnect, leaves no pool, so queries fail with "Database not connected". |
| Db.FailedReconnectKeepsClosedPool | server/config/db.js:55-61 | After `setConfig` with a failed reconnect, the closed old pool is still referenced, and queries go to it. |
| Api.DismissRoute | server/routes/api.js:11-18 | The reply is 200 `{success: true}` exactly when the alert was live. Otherwise it is 404 "Alert not found" and the store is unchanged. The store is always the one dismissAlert leaves. |
| Api.AllWordChars | server/routes/api.js:87 | True exactly when every character is a letter, a digit or an underscore. |
| Api.ValidTableName | server/routes/api.js:87 | A name is accepted exactly when it is non-empty and every character is in `[A-Za-z0-9_]`. |
| Api.AcceptedNameHasNoQuote | server/routes/api.js:87 | A name the check accepts contains no quote character. |
| Api.QuotedNameHasTwoQuotes | server/routes/api.js:91 | A quote-free name spliced into the literal after a quote-free head leaves exactly two quotes in the query. |
| Api.QuotedNameIsDelimited | server/routes/api.js:91 | In that query, the first quote comes right after the head and opens the literal. The next quote comes right after the whole name and closes it. |
| Api.AcceptedNameStaysInsideLiteral | server/routes/api.js:87-91 | For every accepted name, the column query has exactly two quotes, and they delimit exactly the name. |
| Api.GetColumns | server/routes/api.js:83-96 | A rejected name gets 400 "Invalid table name", and only then is no query handed on. An accepted name hands on the column query for that name. In mock mode the reply is 200 with an empty list. Without a pool it is 500 "Database not connected". A failed query gives 500 with its message. A successful one gives 200 with each row's COLUMN_NAME, in order. |
| Api.PostColumns | server/routes/api.js:98-112 | The same check, applied to `String(table)`. A rejected value gets 400. The query is sent exactly when the value is accepted and the pool built from the request's `config` connects. A failed connect gives 500 with its message and no query. After that the reply is as for GET: 500 with the query's error, or 200 with each row's COLUMN_NAME. |
| Api.MissingTableIsQueriedAsUndefined | server/routes/api.js:100-106 | A body without `table` is never answered 400. Once its pool connects, it queries the columns of table `undefined`. |
| Api.PostSettings | server/routes/api.js:33-49 | The reply is `{success: true}` (the cron library's rejection of an expression is outside the model), and the settings steps themselves never touch the alert store. The database state is unchanged when neither `mockMode` nor `dbConfig` is supplied. Otherwise it is exactly `setMockMode` (run only when `mockMode` is present), then `setConfig` (run only when `dbConfig` is supplied), with their reconnect outcomes. The service changes exactly by `setPollingInterval` for a non-zero interval, and otherwise not at all. |
| Dashboard.UrgencyOf | client/src/pages/Dashboard.jsx:46-49 | Critical exactly below 3,600,000 ms elapsed, Standard exactly in [3,600,000, 14,400,000), and Aging exactly from 14,400,000 ms on. |
| Dashboard.GetBadgeStatus | client/src/pages/Dashboard.jsx:45-50 | The red "Critical (< 1h)" badge exactly under an hour, the gold "Standard (1-4h)" badge exactly from one to under four hours, and the "Aging (> 4h)" badge exactly from four hours on. |
| Dashboard.UrgencyMonotone | client/src/pages/Dashboard.jsx:47-49 | A longer elapsed time is never more urgent. |
| Dashboard.FutureSaleIsCritical | client/src/pages/Dashboard.jsx:46-47 | A sale time in the future (negative elapsed time) gets the red badge. |
| Analytics.ReduceIsTotal | client/src/pages/Analytics.jsx:27-28 | The front-to-back reduce with a seed equals the seed plus the column's total, with missing amounts counted as 0. |
| Analytics.TotalAppend | client/src/pages/Analytics.jsx:27-28 | A column total over two concatenated lists is the sum of their totals. |
| Analytics.Summarize | client/src/pages/Analytics.jsx:27-29 | `transactionCount` is the number of rows. `totalSales` and `totalQty` are the column totals, with a missing or falsy amount counted as 0. |
| Analytics.SummarizeEmpty | client/src/pages/Analytics.jsx:10 | No rows give the all-zero initial summary. |
| Analytics.SummarizeAppend | client/src/pages/Analytics.jsx:27-29 | The summary of concatenated row lists is the component-wise sum of their summaries. |
| Analytics.EmptyLineCountsOnlyAsTransaction | client/src/pages/Analytics.jsx:27-29 | A row with no amounts adds one transaction and nothing else. |
| Wizard.Press | client/src/pages/Settings.jsx:96-108 | A press takes effect exactly when its button is shown. Previous goes back exactly one step. Next from the first step moves to the second when the connection test succeeded and otherwise stays. Next from any other step moves forward one step. Save keeps the step. An in-range step stays within [0, 2]. |
| Wizard.Run | client/src/pages/Settings.jsx:197-211 | Starting from a step in [0, 2], any sequence of clicks ends on a step in [0, 2]. |
| Wizard.ButtonsPartitionSteps | client/src/pages/Settings.jsx:197-211 | On every step exactly one of Next and Save is shown. Previous is shown on every step except the first. |
| Wizard.LeavingFirstStepNeedsConnection | client/src/pages/Settings.jsx:96-100 | A session that leaves the connection step contains a Next click whose connection test succeeded. |
| Wizard.CommitInterval | client/src/pages/Settings.jsx:169 | The committed interval is always in [1, 60], and a typed value already in range is kept. |
| Wizard.SaveRequest | client/src/pages/Settings.jsx:70-87 | Save reads only the fields mounted on the last step. The posted settings object is therefore exactly `{options: {encrypt: true, trustServerCertificate: true}}`, whatever the connection fields hold. Mock mode and interval are the form's. |
| Wizard.SavedSettingsKeepEncryption | client/src/pages/Settings.jsx:75-81 | Whatever the form holds, after saving, the server's settings have the fixed secure options. |
| Wizard.SaveKeepsConnectionTarget | client/src/pages/Settings.jsx:70-87 | After a save, every server setting other than `options` (server, database, user, password and the rest) has the value it had before. |
| Wizard.SavedIntervalWithinBounds | client/src/pages/Settings.jsx:169 | An interval committed by the number input reaches the schedule unchanged, so it is within [1, 60]. |

## Left out

- The `node-cron` timer and `start`/`stop` (pollingService.js:11-29). These are library timers and event-loop scheduling.
- Alerts.SetPollingInterval: models only the new schedule string. `setPollingInterval` also restarts the timer, and `start` runs `checkForNewSales()` at once (pollingService.js:21, 33). In mock mode that poll can add an alert before the first await, so the store can change during the call. The model leaves this poll to a separate `Alerts.CheckForNewSales`.
- The mock-mode alert generator (pollingService.js:38-52). It draws from `Math.random()` and `Date.now()`, so `Alerts.CheckForNewSales` models only the database branch.
- The random id fallback for a falsy ENTRYORDER. It is the parameter `draw`, the text of the random number for each batch position.
- The clocks: `new Date()` for resolution times and for the dashboard, and the conversion of BILLDATE. These are integer-millisecond parameters, and an invalid date (NaN) is not modelled.
- `lastCheckTime`. The code writes it but never reads it.
- JavaScript's loose `==` in `dismissAlert`/`markAsNotOnline` versus strict `===` in `addAlert`. Ids are strings in the model, so a numeric mock id compared with a string route parameter is not modelled.
- `Alerts.Alert.details`. It holds only the four columns the poll reads plus the sale time, not the whole database row.
- The mssql calls: `sql.connect`, `new ConnectionPool(config).connect()`, `pool.close` and its rejection, and the SQL text of server/routes/sales.js. Connection outcomes and pool answers are parameters.
- Arrays in request bodies. `String(["sales"])` is `"sales"`, so a body `{"table": ["sales"]}` passes the `POST /db/columns` guard. Arrays are not part of `JsValue.Value`.
- The discovery routes `POST /db/test`, `GET /db/tables` and `POST /db/tables`. They only pass calls through to the pool.
- The read-only routes `GET /alerts`, `GET /history` and `GET /settings`. They return `Store.alerts` and `Store.history` as they are. `GET /settings` returns the settings object and the mock-mode flag, without the pool (api.js:26-31).
- server/index.js, server/investigate_db.js and server/test_connection.js. They are bootstrap and one-off scripts.
- React rendering, antd components, axios and the clipboard (App.jsx, MainLayout.jsx, History.jsx, and the markup of the three pages). History.jsx:61 always shows a "Synced" tag, even for not-online alerts.
- The wizard's table and column pickers (`fetchTables`, `handleTableChange` and the Mapping step, Settings.jsx:52-68, 134-160) and the form loading in `fetchSettings` (Settings.jsx:22-50). They only fetch display data. `handleSave` never sends the mapping choices.
- Wizard.SaveRequest: relies on antd's documented rule that `form.getFieldsValue()` without arguments returns only the mounted fields. The antd form store itself is not modelled.
- Wizard.Press: does not model the async `next`, whose step update uses the step captured when the click started.
- Api.PostSettings: the 200 reply assumes that `cron.schedule` accepts the new expression in `start()` (pollingService.js:12-15, 33). That holds for the wizard's 1 to 60, but not for a negative interval. The cron library's validation is not part of this model: there the handler rejects before `res.json` (api.js:47), so no reply is sent and the old task has already been stopped.
- Api.PostSettings: does not model the immediate poll that a non-zero interval triggers through `setPollingInterval` (see the `Alerts.SetPollingInterval` line). In mock mode that poll can add an alert before the reply is sent.
- Api.PostSettings: treats its three steps as sequential. It does not model that the reconnect started by `setMockMode` is not awaited.
- Api.PostSettings: request fields of unexpected types are not modelled. These include an explicit `null` or other non-boolean `mockMode`, which passes the `!== undefined` test and turns mock mode off. They also include a non-object `dbConfig` and a non-integer `pollingInterval`.
- Number formatting. JavaScript numbers are doubles, and the model uses integers. `Decimal.IntToString` matches JavaScript only for integers below 1e21. The analytics amounts are integers, so `toFixed` and the string concatenation JavaScript would do for a text amount are not modelled.
- Concurrency and atomicity. The handlers are async and interleave at their awaits (api.js:41, pollingService.js:57). No change to the alert lists spans an await (pollingService.js:64-80, 91-125), so each alert-list transition is atomic as modelled, and the code has no locking to model. The database module is not atomic in this way; see the `Db.ConnectDB` line.
- Db.ConnectDB: checks mock mode and the target and writes the pool in one step, although an await on `sql.connect` separates them in the source (db.js:35-46). `setMockMode(false)` does not wait for that connect (db.js:70-71), so a `{mockMode: true}` request arriving while it is pending can be followed by the connect installing a live pool while mock mode is on. The model cannot reach that state.

=== FILE: alerts.dfy ===
/**
  The alert lifecycle engine of the polling service (server/services/pollingService.js).

  The service keeps two in-memory lists: `alerts`, the live alerts an operator
  still has to act on, and `history`, the resolved ones. A poll turns every row
  of today's sales into an alert and appends it unless an alert with the same
  id is already live; an operator resolves a live alert, which moves it to the
  end of the history with a status and a resolution time.

  Here the two lists are the immutable `Store` and every operation is a pure
  transition. Clocks and random numbers are parameters.
 */
module Alerts {
  import opened Results
  import opened JsValue
  import Decimal
  import Text

  /** The `status` field of an alert. */
  datatype Status = Pending | Synced | NotOnline

  /** The text the service writes into `status`. */
  function StatusText(s: Status): string {
    match s
    case Pending => "pending"
    case Synced => "synced"
    case NotOnline => "not-online"
  }

  /**
    The columns of one row of the `sales` table that a poll reads: BILLNO,
    ITEMID, ENTRYORDER and QTY as they arrive, and BILLDATE already converted to
    epoch milliseconds.
   */
  datatype SaleRow = SaleRow(
    billNo: Option<Value>,
    itemId: Option<Value>,
    entryOrder: Option<Value>,
    qty: Option<Value>,
    billDate: int)

  /** One alert. `syncedTime` is absent until the alert is resolved. */
  datatype Alert = Alert(
    id: string,
    billNo: Option<Value>,
    sku: Option<Value>,
    productName: Option<Value>,
    qty: Option<Value>,
    soldTime: int,
    status: Status,
    syncedTime: Option<int>,
    details: SaleRow)

  /** The live alerts and the resolved history, each in insertion order. */
  datatype Store = Store(alerts: seq<Alert>, history: seq<Alert>)

  const EmptyStore := Store([], [])

  // ---------------------------------------------------------------------------
  // Identity of a row
  // ---------------------------------------------------------------------------

  /**
    The id a poll gives the alert of `row`: bill number, item id and entry order
    joined by dashes. When ENTRYORDER is falsy (absent, null, 0, "") the source
    puts a fresh random number in its place; `draw` is that number's text.
   */
  function Identity(row: SaleRow, draw: string): string {
    var tiebreak := if Truthy(row.entryOrder) then Render(row.entryOrder) else draw;
    Render(row.billNo) + "-" + Render(row.itemId) + "-" + tiebreak
  }

  predicate NoDash(s: string) {
    '-' !in s
  }

  /**
    When the entry order is truthy and neither the bill number nor the item id
    renders with a dash, the id determines all three rendered parts (and the
    random draw plays no part).
   */
  lemma IdentityDeterminesParts(r1: SaleRow, r2: SaleRow, d1: string, d2: string)
    requires Truthy(r1.entryOrder) && Truthy(r2.entryOrder)
    requires NoDash(Render(r1.billNo)) && NoDash(Render(r2.billNo))
    requires NoDash(Render(r1.itemId)) && NoDash(Render(r2.itemId))
    ensures Identity(r1, d1) == Identity(r2, d2) <==>
      && Render(r1.billNo) == Render(r2.billNo)
      && Render(r1.itemId) == Render(r2.itemId)
      && Render(r1.entryOrder) == Render(r2.entryOrder)
  {
    var b1, i1, e1 := Render(r1.billNo), Render(r1.itemId), Render(r1.entryOrder);
    var b2, i2, e2 := Render(r2.billNo), Render(r2.itemId), Render(r2.entryOrder);
    assert Identity(r1, d1) == b1 + "-" + (i1 + "-" + e1);
    assert Identity(r2, d2) == b2 + "-" + (i2 + "-" + e2);
    if Identity(r1, d1) == Identity(r2, d2) {
      Text.SplitAtFirst(b1, i1 + "-" + e1, b2, i2 + "-" + e2, '-');
      Text.SplitAtFirst(i1, e1, i2, e2, '-');
    }
  }

  /** A column holding a non-negative integer. */
  predicate IsCount(v: Option<Value>) {
    v.Some? && v.value.Num? && v.value.n >= 0
  }

  lemma CountRendersWithoutDash(v: Option<Value>)
    requires IsCount(v)
    ensures NoDash(Render(v))
  {
    var s := Render(v);
    assert Decimal.IsDigits(s);
    assert forall i :: 0 <= i < |s| ==> s[i] != '-';
  }

  /**
    For rows whose bill number, item id and entry order are non-negative
    integers (with a non-zero entry order), two rows get the same id exactly
    when they agree on all three columns.
   */
  lemma NumericIdentityInjective(r1: SaleRow, r2: SaleRow, d1: string, d2: string)
    requires IsCount(r1.billNo) && IsCount(r1.itemId) && IsCount(r1.entryOrder)
    requires IsCount(r2.billNo) && IsCount(r2.itemId) && IsCount(r2.entryOrder)
    requires Truthy(r1.entryOrder) && Truthy(r2.entryOrder)
    ensures Identity(r1, d1) == Identity(r2, d2) <==>
      r1.billNo == r2.billNo && r1.itemId == r2.itemId && r1.entryOrder == r2.entryOrder
  {
    CountRendersWithoutDash(r1.billNo);
    CountRendersWithoutDash(r2.billNo);
    CountRendersWithoutDash(r1.itemId);
    CountRendersWithoutDash(r2.itemId);
    IdentityDeterminesParts(r1, r2, d1, d2);
    if Identity(r1, d1) == Identity(r2, d2) {
      Decimal.IntToStringInjective(r1.billNo.value.n, r2.billNo.value.n);
      Decimal.IntToStringInjective(r1.itemId.value.n, r2.itemId.value.n);
      Decimal.IntToStringInjective(r1.entryOrder.value.n, r2.entryOrder.value.n);
    }
  }

  /**
    With text columns the id is not injective: two different sale lines whose
    bill numbers and item ids contain dashes share one id, so the second is
    taken for a duplicate of the first.
   */
  lemma TextIdentityCollides()
    ensures exists r1: SaleRow, r2: SaleRow ::
      && Truthy(r1.entryOrder) && Truthy(r2.entryOrder)
      && r1.billNo != r2.billNo
      && Identity(r1, "") == Identity(r2, "")
  {
    var r1 := SaleRow(Some(Str("7-1")), Some(Str("A")), Some(Str("1")), None, 0);
    var r2 := SaleRow(Some(Str("7")), Some(Str("1-A")), Some(Str("1")), None, 0);
    assert Identity(r1, "") == "7-1" + "-" + "A" + "-" + "1";
    assert Identity(r2, "") == "7" + "-" + "1-A" + "-" + "1";
    assert |r1.billNo.value.s| != |r2.billNo.value.s|;
  }

  /** The alert a poll builds from `row`. */
  function MakeAlert(row: SaleRow, draw: string): Alert {
    Alert(Identity(row, draw), row.billNo, row.itemId, row.itemId, row.qty,
          row.billDate, Pending, None, row)
  }

  /** The alerts of a fetched batch, in recordset order; `draw(k)` is the random text for row `k`. */
  function BatchAlerts(rows: seq<SaleRow>, draw: nat -> string): (batch: seq<Alert>)
    ensures |batch| == |rows|
    ensures forall k :: 0 <= k < |rows| ==>
      && batch[k].id == Identity(rows[k], draw(k))
      && batch[k].billNo == rows[k].billNo
      && batch[k].sku == batch[k].productName == rows[k].itemId
      && batch[k].qty == rows[k].qty
      && batch[k].soldTime == rows[k].billDate
      && batch[k].status == Pending
      && batch[k].syncedTime.None?
      && batch[k].details == rows[k]
  {
    seq(|rows|, k requires 0 <= k < |rows| => MakeAlert(rows[k], draw(k)))
  }

  // ---------------------------------------------------------------------------
  // Searching the live list
  // ---------------------------------------------------------------------------

  predicate HasId(s: seq<Alert>, id: string) {
    exists k :: 0 <= k < |s| && s[k].id == id
  }

  lemma HasIdConcat(a: seq<Alert>, b: seq<Alert>, id: string)
    ensures HasId(a + b, id) <==> HasId(a, id) || HasId(b, id)
  {
    if HasId(a + b, id) {
      var k :| 0 <= k < |a + b| && (a + b)[k].id == id;
      if k >= |a| {
        assert b[k - |a|].id == id;
      }
    }
    if HasId(a, id) {
      var k :| 0 <= k < |a| && a[k].id == id;
      assert (a + b)[k].id == id;
    }
    if HasId(b, id) {
      var k :| 0 <= k < |b| && b[k].id == id;
      assert (a + b)[|a| + k].id == id;
    }
  }

  /** `k` is the first position of `s` holding `id`. */
  predicate FirstMatch(s: seq<Alert>, id: string, k: int) {
    && 0 <= k < |s|
    && s[k].id == id
    && forall j :: 0 <= j < k ==> s[j].id != id
  }

  /** No two live alerts share an id. */
  predicate DistinctIds(s: seq<Alert>) {
    forall i, j :: 0 <= i < j < |s| ==> s[i].id != s[j].id
  }

  /** `Array.prototype.findIndex` with an id test: the first match, or -1. */
  function FindIndex(s: seq<Alert>, id: string): (k: int)
    ensures k == -1 <==> !HasId(s, id)
    ensures k != -1 ==> FirstMatch(s, id, k)
  {
    if |s| == 0 then -1
    else if s[0].id == id then 0
    else
      var k := FindIndex(s[1..], id);
      if k == -1 then
        assert forall j :: 1 <= j < |s| ==> s[j] == s[1..][j - 1];
        -1
      else
        assert forall j :: 1 <= j <= k + 1 ==> s[j] == s[1..][j - 1];
        k + 1
  }

  // ---------------------------------------------------------------------------
  // addAlert
  // ---------------------------------------------------------------------------

  /**
    Appends `a` to the live alerts unless one with the same id is already live.
    Only the live list is consulted: a resolved alert with that id does not
    keep `a` out.
   */
  function AddAlert(st: Store, a: Alert): (r: Store)
    ensures r.history == st.history
    ensures HasId(st.alerts, a.id) ==> r == st
    ensures !HasId(st.alerts, a.id) ==> r.alerts == st.alerts + [a]
    ensures HasId(r.alerts, a.id)
    ensures DistinctIds(st.alerts) ==> DistinctIds(r.alerts)
  {
    if FindIndex(st.alerts, a.id) != -1 then st
    else
      var r := st.(alerts := st.alerts + [a]);
      assert r.alerts[|st.alerts|] == a;
      r
  }

  /** `batch.forEach(addAlert)`: the alerts of one poll, offered in order. */
  function AdmitAll(st: Store, batch: seq<Alert>): (r: Store)
    ensures r.history == st.history
    ensures DistinctIds(st.alerts) ==> DistinctIds(r.alerts)
    decreases |batch|
  {
    if |batch| == 0 then st else AdmitAll(AddAlert(st, batch[0]), batch[1..])
  }

  /**
    The reference for one poll's admissions: position `k` of the batch is
    admitted when its id is not live and no earlier position of the batch
    carries the same id.
   */
  predicate AdmittedAt(live: seq<Alert>, batch: seq<Alert>, k: int)
    requires 0 <= k < |batch|
  {
    !HasId(live, batch[k].id) && !HasId(batch[..k], batch[k].id)
  }

  /** The admitted positions of `batch`, kept in batch order. */
  function FirstNew(live: seq<Alert>, batch: seq<Alert>): seq<Alert>
    decreases |batch|
  {
    if |batch| == 0 then []
    else
      var k := |batch| - 1;
      FirstNew(live, batch[..k]) + (if AdmittedAt(live, batch, k) then [batch[k]] else [])
  }

  /** An id is among the admitted alerts exactly when it is in the batch and not live. */
  lemma {:induction false} FirstNewIds(live: seq<Alert>, batch: seq<Alert>, id: string)
    ensures HasId(FirstNew(live, batch), id) <==> !HasId(live, id) && HasId(batch, id)
    decreases |batch|
  {
    if |batch| > 0 {
      var k := |batch| - 1;
      var init := batch[..k];
      var tail := if AdmittedAt(live, batch, k) then [batch[k]] else [];
      assert FirstNew(live, batch) == FirstNew(live, init) + tail;
      assert batch == init + [batch[k]];
      FirstNewIds(live, init, id);
      HasIdConcat(FirstNew(live, init), tail, id);
      HasIdConcat(init, [batch[k]], id);
      assert HasId([batch[k]], id) <==> batch[k].id == id;
      assert HasId(tail, id) <==> AdmittedAt(live, batch, k) && batch[k].id == id;
    }
  }

  lemma {:induction false} AdmitAllSnoc(st: Store, batch: seq<Alert>, a: Alert)
    ensures AdmitAll(st, batch + [a]) == AddAlert(AdmitAll(st, batch), a)
    decreases |batch|
  {
    if |batch| > 0 {
      assert (batch + [a])[1..] == batch[1..] + [a];
      AdmitAllSnoc(AddAlert(st, batch[0]), batch[1..], a);
    } else {
      assert (batch + [a])[1..] == [];
    }
  }

  /**
    A poll appends exactly the batch's first occurrences of ids that are not
    live, in batch order, after the alerts that were already live.
   */
  lemma {:induction false} AdmitAllAppendsFirstNew(st: Store, batch: seq<Alert>)
    ensures AdmitAll(st, batch).alerts == st.alerts + FirstNew(st.alerts, batch)
    decreases |batch|
  {
    if |batch| > 0 {
      var k := |batch| - 1;
      var init := batch[..k];
      var a := batch[k];
      assert batch == init + [a];
      AdmitAllSnoc(st, init, a);
      AdmitAllAppendsFirstNew(st, init);
      var f := FirstNew(st.alerts, init);
      HasIdConcat(st.alerts, f, a.id);
      FirstNewIds(st.alerts, init, a.id);
      assert HasId(st.alerts + f, a.id) <==> !AdmittedAt(st.alerts, batch, k);
    }
  }

  /** After a poll every id of the batch is live. */
  lemma AdmitAllCovers(st: Store, batch: seq<Alert>, id: string)
    requires HasId(batch, id)
    ensures HasId(AdmitAll(st, batch).alerts, id)
  {
    AdmitAllAppendsFirstNew(st, batch);
    FirstNewIds(st.alerts, batch, id);
    HasIdConcat(st.alerts, FirstNew(st.alerts, batch), id);
  }

  lemma {:induction false} FirstNewOfKnown(live: seq<Alert>, batch: seq<Alert>)
    requires forall k :: 0 <= k < |batch| ==> HasId(live, batch[k].id)
    ensures FirstNew(live, batch) == []
    decreases |batch|
  {
    if |batch| > 0 {
      var k := |batch| - 1;
      FirstNewOfKnown(live, batch[..k]);
      assert !AdmittedAt(live, batch, k);
    }
  }

  /** A batch whose ids are all live already changes nothing. */
  lemma AdmitAllOfKnown(st: Store, batch: seq<Alert>)
    requires forall k :: 0 <= k < |batch| ==> HasId(st.alerts, batch[k].id)
    ensures AdmitAll(st, batch) == st
  {
    AdmitAllAppendsFirstNew(st, batch);
    FirstNewOfKnown(st.alerts, batch);
    assert st.alerts + [] == st.alerts;
  }

  /** A batch whose ids are pairwise distinct and none of them live is appended whole. */
  lemma {:induction false} FirstNewOfFreshDistinct(live: seq<Alert>, batch: seq<Alert>)
    requires DistinctIds(batch)
    requires forall k :: 0 <= k < |batch| ==> !HasId(live, batch[k].id)
    ensures FirstNew(live, batch) == batch
    decreases |batch|
  {
    if |batch| > 0 {
      var k := |batch| - 1;
      var init := batch[..k];
      assert init + [batch[k]] == batch;
      FirstNewOfFreshDistinct(live, init);
      assert forall j :: 0 <= j < |init| ==> init[j].id != batch[k].id;
    }
  }

  // ---------------------------------------------------------------------------
  // checkForNewSales
  // ---------------------------------------------------------------------------

  /**
    One poll over a database result. A failed query is caught and changes
    nothing; otherwise every row of today's recordset is offered to
    `AddAlert` in order. `draw(k)` is the random text for row `k`.
   */
  function CheckForNewSales(st: Store, fetched: Result<seq<SaleRow>>, draw: nat -> string): (r: Store)
    ensures r.history == st.history
    ensures fetched.Failure? ==> r == st
    ensures fetched.Success? ==>
      r.alerts == st.alerts + FirstNew(st.alerts, BatchAlerts(fetched.value, draw))
    ensures DistinctIds(st.alerts) ==> DistinctIds(r.alerts)
  {
    match fetched
    case Failure(_) => st
    case Success(rows) =>
      var batch := BatchAlerts(rows, draw);
      AdmitAllAppendsFirstNew(st, batch);
      if |rows| > 0 then AdmitAll(st, batch) else st
  }

  /** Every row of the batch has a truthy ENTRYORDER, so no id depends on a random draw. */
  predicate DeterministicRows(rows: seq<SaleRow>) {
    forall k :: 0 <= k < |rows| ==> Truthy(rows[k].entryOrder)
  }

  /**
    Polling the same rows again, with nothing resolved in between, adds no
    alert: the ids of unchanged rows with a truthy entry order are reproduced
    exactly and are all live after the first poll.
   */
  lemma PollIsIdempotent(st: Store, rows: seq<SaleRow>, d1: nat -> string, d2: nat -> string)
    requires DeterministicRows(rows)
    ensures
      var once := CheckForNewSales(st, Success(rows), d1);
      CheckForNewSales(once, Success(rows), d2) == once
  {
    var b1 := BatchAlerts(rows, d1);
    var b2 := BatchAlerts(rows, d2);
    assert b1 == b2;
    var once := CheckForNewSales(st, Success(rows), d1);
    if |rows| > 0 {
      assert once == AdmitAll(st, b1);
      forall k | 0 <= k < |b2| ensures HasId(once.alerts, b2[k].id) {
        assert b1[k].id == b2[k].id;
        AdmitAllCovers(st, b1, b2[k].id);
      }
      AdmitAllOfKnown(once, b2);
    }
  }

  // ---------------------------------------------------------------------------
  // dismissAlert / markAsNotOnline
  // ---------------------------------------------------------------------------

  /** The boolean a resolution returns and the store it leaves behind. */
  datatype Resolution = Resolution(found: bool, store: Store)

  /** The live list without position `k`, as `splice(k, 1)` leaves it. */
  function RemoveAt(s: seq<Alert>, k: int): seq<Alert>
    requires 0 <= k < |s|
  {
    s[..k] + s[k + 1..]
  }

  /** Splicing out the first match of a distinct list leaves a distinct list without that id. */
  lemma RemoveFirstMatch(s: seq<Alert>, id: string, k: int)
    requires FirstMatch(s, id, k)
    ensures DistinctIds(s) ==> DistinctIds(RemoveAt(s, k)) && !HasId(RemoveAt(s, k), id)
  {
    var rest := RemoveAt(s, k);
    assert forall j :: 0 <= j < k ==> rest[j] == s[j];
    assert forall j :: k <= j < |rest| ==> rest[j] == s[j + 1];
    if DistinctIds(s) {
      assert forall j :: k <= j < |rest| ==> rest[j].id != s[k].id;
    }
  }

  /**
    The step `dismissAlert` and `markAsNotOnline` share: the first live alert
    with `id` gets `stamp` as its status and `now` as its resolution time, is
    appended to the history and spliced out of the live list.
   */
  function Resolve(st: Store, id: string, stamp: Status, now: int): (r: Resolution)
    ensures r.found <==> HasId(st.alerts, id)
    ensures !r.found ==> r.store == st
    ensures r.found ==> exists k ::
      && FirstMatch(st.alerts, id, k)
      && r.store.alerts == RemoveAt(st.alerts, k)
      && r.store.history == st.history + [st.alerts[k].(status := stamp, syncedTime := Some(now))]
    ensures |r.store.alerts| + |r.store.history| == |st.alerts| + |st.history|
    ensures |st.history| <= |r.store.history| && r.store.history[..|st.history|] == st.history
    ensures DistinctIds(st.alerts) ==> DistinctIds(r.store.alerts) && !HasId(r.store.alerts, id)
  {
    var k := FindIndex(st.alerts, id);
    if k == -1 then Resolution(false, st)
    else
      var resolved := st.alerts[k].(status := stamp, syncedTime := Some(now));
      var rest := RemoveAt(st.alerts, k);
      var r := Resolution(true, Store(rest, st.history + [resolved]));
      assert r.store.history[..|st.history|] == st.history;
      RemoveFirstMatch(st.alerts, id, k);
      r
  }

  /** `dismissAlert(id)`: resolves the live alert with `id` as synced. */
  function DismissAlert(st: Store, id: string, now: int): (r: Resolution)
    ensures r.found <==> HasId(st.alerts, id)
    ensures !r.found ==> r.store == st
    ensures r.found ==>
      && |r.store.history| == |st.history| + 1
      && r.store.history[|st.history|].id == id
      && r.store.history[|st.history|].status == Synced
      && StatusText(r.store.history[|st.history|].status) == "synced"
      && r.store.history[|st.history|].syncedTime == Some(now)
      && |r.store.alerts| == |st.alerts| - 1
  {
    Resolve(st, id, Synced, now)
  }

  /** `markAsNotOnline(id)`: resolves the live alert with `id` as not online. */
  function MarkAsNotOnline(st: Store, id: string, now: int): (r: Resolution)
    ensures r.found <==> HasId(st.alerts, id)
    ensures !r.found ==> r.store == st
    ensures r.found ==>
      && |r.store.history| == |st.history| + 1
      && r.store.history[|st.history|].id == id
      && r.store.history[|st.history|].status == NotOnline
      && StatusText(r.store.history[|st.history|].status) == "not-online"
      && r.store.history[|st.history|].syncedTime == Some(now)
      && |r.store.alerts| == |st.alerts| - 1
  {
    Resolve(st, id, NotOnline, now)
  }

  /**
    Once an id is resolved, by either operation, a second resolution of the
    same id finds nothing and changes nothing.
   */
  lemma SecondResolutionFails(st: Store, id: string, first: Status, second: Status, t1: int, t2: int)
    requires DistinctIds(st.alerts)
    requires Resolve(st, id, first, t1).found
    ensures
      var after := Resolve(st, id, first, t1).store;
      var again := Resolve(after, id, second, t2);
      !again.found && again.store == after
  {
  }

  /**
    Resolution leaves every other live alert in place and in order: an alert
    with a different id is live afterwards exactly when it was live before.
   */
  lemma ResolveKeepsOthers(st: Store, id: string, stamp: Status, now: int, a: Alert)
    requires a.id != id
    ensures a in Resolve(st, id, stamp, now).store.alerts <==> a in st.alerts
  {
    var r := Resolve(st, id, stamp, now);
    if r.found {
      var k :| FirstMatch(st.alerts, id, k) && r.store.alerts == RemoveAt(st.alerts, k);
      assert st.alerts == st.alerts[..k] + [st.alerts[k]] + st.alerts[k + 1..];
    }
  }

  /** The store invariant, live ids pairwise distinct, holds from the start. */
  lemma EmptyStoreValid()
    ensures DistinctIds(EmptyStore.alerts)
  {
  }

  // ---------------------------------------------------------------------------
  // The gap between the code and the intended lifecycle
  // ---------------------------------------------------------------------------

  /**
    Every poll re-reads all of today's rows and `AddAlert` looks only at the
    live list, so a row with a truthy ENTRYORDER whose alert was dismissed is
    admitted again by the next poll under the same id, whatever the random
    draws of the two polls: its id is then both live and in the history.
   */
  lemma ResolvedIdentityIsReadmitted(st: Store, rows: seq<SaleRow>, k: nat,
                                     d1: nat -> string, d2: nat -> string, now: int)
    requires k < |rows|
    requires Truthy(rows[k].entryOrder)
    requires DistinctIds(st.alerts)
    ensures
      var id := Identity(rows[k], d1(k));
      var polled := CheckForNewSales(st, Success(rows), d1);
      var resolved := DismissAlert(polled, id, now).store;
      var again := CheckForNewSales(resolved, Success(rows), d2);
      && Identity(rows[k], d2(k)) == id
      && HasId(again.alerts, id) && HasId(again.history, id) && !HasId(resolved.alerts, id)
  {
    var id := Identity(rows[k], d1(k));
    var b1 := BatchAlerts(rows, d1);
    assert b1[k].id == id;
    var polled := CheckForNewSales(st, Success(rows), d1);
    assert polled == AdmitAll(st, b1);
    AdmitAllCovers(st, b1, id);
    var res := DismissAlert(polled, id, now);
    assert res.found;
    var resolved := res.store;
    assert resolved.history[|polled.history|].id == id;
    var b2 := BatchAlerts(rows, d2);
    assert b2[k].id == id;
    var again := CheckForNewSales(resolved, Success(rows), d2);
    assert again == AdmitAll(resolved, b2);
    AdmitAllCovers(resolved, b2, id);
    assert again.history == resolved.history;
    assert again.history[|polled.history|].id == id;
  }

  /**
    A row with a falsy ENTRYORDER takes its id from a random draw, so when two
    polls draw differently the same sale is admitted twice, as two live alerts.
   */
  lemma RandomIdRowIsReadmitted(st: Store, row: SaleRow, d1: nat -> string, d2: nat -> string)
    requires !Truthy(row.entryOrder)
    requires d1(0) != d2(0)
    requires !HasId(st.alerts, Identity(row, d1(0))) && !HasId(st.alerts, Identity(row, d2(0)))
    ensures
      var once := CheckForNewSales(st, Success([row]), d1);
      var twice := CheckForNewSales(once, Success([row]), d2);
      && |once.alerts| == |st.alerts| + 1
      && |twice.alerts| == |st.alerts| + 2
      && twice.alerts[|st.alerts|].details == row
      && twice.alerts[|st.alerts| + 1].details == row
  {
    var id1 := Identity(row, d1(0));
    var id2 := Identity(row, d2(0));
    var prefix := Render(row.billNo) + "-" + Render(row.itemId) + "-";
    assert id1 == prefix + d1(0) && id2 == prefix + d2(0);
    assert id1[|prefix|..] == d1(0) && id2[|prefix|..] == d2(0);
    assert id1 != id2;
    var b1 := BatchAlerts([row], d1);
    assert FirstNew(st.alerts, b1) == [b1[0]] by {
      assert b1[..0] == [];
      assert !HasId(b1[..0], id1);
    }
    var once := CheckForNewSales(st, Success([row]), d1);
    assert once.alerts == st.alerts + [b1[0]];
    HasIdConcat(st.alerts, [b1[0]], id2);
    assert !HasId([b1[0]], id2);
    var b2 := BatchAlerts([row], d2);
    assert FirstNew(once.alerts, b2) == [b2[0]] by {
      assert b2[..0] == [];
      assert !HasId(b2[..0], id2);
    }
  }

  // ---------------------------------------------------------------------------
  // The polling schedule
  // ---------------------------------------------------------------------------

  const CronTail := " * * * *"

  /** The cron expression `setPollingInterval` builds: every `minutes` minutes. */
  function CronExpr(minutes: int): string {
    "*/" + Decimal.IntToString(minutes) + CronTail
  }

  /** Reads the step back out of an expression "star-slash n" followed by four stars. */
  function CronMinutes(schedule: string): Option<int> {
    if |schedule| >= 2 + |CronTail|
       && schedule[..2] == "*/"
       && schedule[|schedule| - |CronTail|..] == CronTail
    then Decimal.ParseInt(schedule[2..|schedule| - |CronTail|])
    else None
  }

  /** The schedule string and the alert store of the running service. */
  datatype Service = Service(schedule: string, store: Store)

  /** The service as loaded: five-minute schedule, no alerts. */
  const InitialService := Service("*/5 * * * *", EmptyStore)

  lemma InitialScheduleIsFiveMinutes()
    ensures CronMinutes(InitialService.schedule) == Some(5)
    ensures InitialService.schedule == CronExpr(5)
  {
    assert Decimal.IntToString(5) == "5";
    assert Decimal.DigitsValue("5") == Decimal.DigitsValue("") * 10 + 5;
  }

  /**
    `setPollingInterval(minutes)`: the new schedule reads back as exactly
    `minutes`, written as JavaScript writes the number, and the schedule
    change itself does not touch the alert store. The timer restart, and the
    poll it runs at once, are not part of this model.
   */
  function SetPollingInterval(svc: Service, minutes: int): (r: Service)
    ensures r.store == svc.store
    ensures CronMinutes(r.schedule) == Some(minutes)
    ensures r.schedule[..2] == "*/"
    ensures |r.schedule| >= 2 + |CronTail|
    ensures r.schedule[2..|r.schedule| - |CronTail|] == Decimal.IntToString(minutes)
  {
    var s := CronExpr(minutes);
    var digits := Decimal.IntToString(minutes);
    assert s[..2] == "*/";
    assert s[|s| - |CronTail|..] == CronTail;
    assert s[2..|s| - |CronTail|] == digits;
    Decimal.ParseIntToString(minutes);
    Service(s, svc.store)
  }
}

=== FILE: analytics.dfy ===
/**
  The summary cards of the analytics page (client/src/pages/Analytics.jsx):
  total sales, total quantity and the number of rows of today's sales, each a
  `reduce` over the rows. Amounts are integers (e.g. in the smallest currency unit).
 */
module Analytics {
  import opened Results

  /** One row of `/api/sales/today`: NetTotal and Qty, `None` when missing or null. */
  datatype SaleLine = SaleLine(netTotal: Option<int>, qty: Option<int>)

  datatype Summary = Summary(totalSales: int, totalQty: int, transactionCount: int)

  /** The summary state before any data arrives. */
  const InitialSummary := Summary(0, 0, 0)

  /** The two summed columns. */
  datatype Column = NetTotal | Qty

  /** `item[column] || 0`: a missing, null or zero amount counts as 0. */
  function Amount(line: SaleLine, col: Column): int {
    var v := match col
      case NetTotal => line.netTotal
      case Qty => line.qty;
    if v.Some? then v.value else 0
  }

  /** `rows.reduce((sum, item) => sum + (item[col] || 0), acc)`, front to back. */
  function Reduce(col: Column, acc: int, rows: seq<SaleLine>): int
    decreases |rows|
  {
    if |rows| == 0 then acc else Reduce(col, acc + Amount(rows[0], col), rows[1..])
  }

  /** The reference: the sum of a column's amounts. */
  function Total(col: Column, rows: seq<SaleLine>): int
    decreases |rows|
  {
    if |rows| == 0 then 0 else Amount(rows[0], col) + Total(col, rows[1..])
  }

  /** The fold with seed `acc` is the seed plus the column total. */
  lemma {:induction false} ReduceIsTotal(col: Column, acc: int, rows: seq<SaleLine>)
    ensures Reduce(col, acc, rows) == acc + Total(col, rows)
    decreases |rows|
  {
    if |rows| > 0 {
      ReduceIsTotal(col, acc + Amount(rows[0], col), rows[1..]);
    }
  }

  lemma {:induction false} TotalAppend(col: Column, a: seq<SaleLine>, b: seq<SaleLine>)
    ensures Total(col, a + b) == Total(col, a) + Total(col, b)
    decreases |a|
  {
    if |a| == 0 {
      assert a + b == b;
    } else {
      assert (a + b)[1..] == a[1..] + b;
      TotalAppend(col, a[1..], b);
    }
  }

  /** The summary `fetchData` computes from today's rows. */
  function Summarize(rows: seq<SaleLine>): (s: Summary)
    ensures s.transactionCount == |rows|
    ensures s.totalSales == Total(NetTotal, rows)
    ensures s.totalQty == Total(Qty, rows)
  {
    ReduceIsTotal(NetTotal, 0, rows);
    ReduceIsTotal(Qty, 0, rows);
    Summary(Reduce(NetTotal, 0, rows), Reduce(Qty, 0, rows), |rows|)
  }

  function Combine(a: Summary, b: Summary): Summary {
    Summary(a.totalSales + b.totalSales, a.totalQty + b.totalQty, a.transactionCount + b.transactionCount)
  }

  /** No rows give the initial all-zero summary. */
  lemma SummarizeEmpty()
    ensures Summarize([]) == InitialSummary
  {
  }

  /** The summary of two row lists joined is the sum of their summaries, however the rows are split. */
  lemma SummarizeAppend(a: seq<SaleLine>, b: seq<SaleLine>)
    ensures Summarize(a + b) == Combine(Summarize(a), Summarize(b))
  {
    TotalAppend(NetTotal, a, b);
    TotalAppend(Qty, a, b);
  }

  /** A row whose amounts are missing counts only as a transaction. */
  lemma EmptyLineCountsOnlyAsTransaction(rows: seq<SaleLine>)
    ensures
      var s := Summarize(rows + [SaleLine(None, None)]);
      s == Combine(Summarize(rows), Summary(0, 0, 1))
  {
    SummarizeAppend(rows, [SaleLine(None, None)]);
  }
}

=== FILE: api.dfy ===
/**
  The request handlers of server/routes/api.js that carry decisions: the
  dismiss route, the settings route and the table-name guard of the two
  column-discovery routes.
 */
module Api {
  import opened Results
  import opened JsValue
  import Text
  import Alerts
  import Db

  /** A JSON response body: `{success: true}`, `{error: message}` or a list of column names. */
  datatype Body = Ok | Error(message: string) | Names(names: seq<Option<Value>>)

  datatype Reply = Reply(status: int, body: Body)

  // ---------------------------------------------------------------------------
  // POST /alerts/:id/dismiss
  // ---------------------------------------------------------------------------

  datatype Dismissed = Dismissed(reply: Reply, store: Alerts.Store)

  /** The dismiss route: `{success: true}` when the alert was live, 404 otherwise. */
  function DismissRoute(st: Alerts.Store, id: string, now: int): (r: Dismissed)
    ensures r.reply == Reply(200, Ok) <==> Alerts.HasId(st.alerts, id)
    ensures !Alerts.HasId(st.alerts, id) ==>
      r.reply == Reply(404, Error("Alert not found")) && r.store == st
    ensures r.store == Alerts.DismissAlert(st, id, now).store
  {
    var res := Alerts.DismissAlert(st, id, now);
    if res.found then Dismissed(Reply(200, Ok), res.store)
    else Dismissed(Reply(404, Error("Alert not found")), res.store)
  }

  // ---------------------------------------------------------------------------
  // Table-name guard of GET /db/columns/:table and POST /db/columns
  // ---------------------------------------------------------------------------

  /** One character of the class `[a-zA-Z0-9_]`. */
  predicate IsWordChar(c: char) {
    'a' <= c <= 'z' || 'A' <= c <= 'Z' || '0' <= c <= '9' || c == '_'
  }

  /** Whether every character of `s` is in the class (consumed left to right). */
  function AllWordChars(s: string): (ok: bool)
    ensures ok <==> forall i :: 0 <= i < |s| ==> IsWordChar(s[i])
  {
    if |s| == 0 then true
    else
      var ok := IsWordChar(s[0]) && AllWordChars(s[1..]);
      assert forall i :: 1 <= i < |s| ==> s[i] == s[1..][i - 1];
      ok
  }

  /** `/^[a-zA-Z0-9_]+$/.test(s)`: a non-empty run of word characters and nothing else. */
  function ValidTableName(s: string): (ok: bool)
    ensures ok <==> |s| > 0 && forall i :: 0 <= i < |s| ==> IsWordChar(s[i])
  {
    |s| > 0 && AllWordChars(s)
  }

  /** The query text before the table's string literal. */
  const ColumnsQueryHead := "SELECT COLUMN_NAME" + " FROM INFORMATION_SCHEMA.COLUMNS" + " WHERE TABLE_NAME = "

  /** The table name as a quoted SQL string literal. */
  function SqlLiteral(table: string): string {
    "'" + table + "'"
  }

  /** The column-discovery query for `table`. */
  function ColumnsQuery(table: string): string {
    ColumnsQueryHead + SqlLiteral(table)
  }

  /** The fixed part of the column query holds no quote of its own. */
  lemma HeadHasNoQuote()
    ensures '\'' !in ColumnsQueryHead
  {
    assert '\'' !in "SELECT COLUMN_NAME";
    assert '\'' !in " FROM INFORMATION_SCHEMA.COLUMNS";
    assert '\'' !in " WHERE TABLE_NAME = ";
  }

  /** An accepted table name carries no quote. */
  lemma AcceptedNameHasNoQuote(table: string)
    requires ValidTableName(table)
    ensures '\'' !in table
  {
    assert forall i :: 0 <= i < |table| ==> IsWordChar(table[i]);
  }

  /**
    After a quote-free head, a quote-free name spliced into a literal leaves
    exactly the two delimiting quotes.
   */
  lemma QuotedNameHasTwoQuotes(head: string, table: string)
    requires '\'' !in head && '\'' !in table
    ensures Text.Count(head + SqlLiteral(table), '\'') == 2
  {
    Text.CountConcat(head, SqlLiteral(table), '\'');
    Text.CountConcat("'" + table, "'", '\'');
    Text.CountConcat("'", table, '\'');
  }

  /**
    After a quote-free head, the first quote opens the literal and the next
    one, right after a quote-free name, closes it.
   */
  lemma QuotedNameIsDelimited(head: string, table: string)
    requires '\'' !in head && '\'' !in table
    ensures Text.IndexOf(head + SqlLiteral(table), '\'') == |head|
    ensures Text.IndexOf((head + SqlLiteral(table))[|head| + 1..], '\'') == |table|
    ensures (head + SqlLiteral(table))[|head| + 1..][..|table|] == table
  {
    var q := head + SqlLiteral(table);
    assert q == head + ['\''] + (table + "'");
    Text.IndexOfJoin(head, '\'', table + "'");
    var afterOpen := q[|head| + 1..];
    assert afterOpen == table + ['\''] + [];
    Text.IndexOfJoin(table, '\'', []);
  }

  /** The same for the query the column routes actually send. */
  lemma AcceptedNameStaysInsideLiteral(table: string)
    requires ValidTableName(table)
    ensures Text.Count(ColumnsQuery(table), '\'') == 2
    ensures Text.IndexOf(ColumnsQuery(table), '\'') == |ColumnsQueryHead|
    ensures
      var afterOpen := ColumnsQuery(table)[|ColumnsQueryHead| + 1..];
      Text.IndexOf(afterOpen, '\'') == |table| && afterOpen[..|table|] == table
  {
    HeadHasNoQuote();
    AcceptedNameHasNoQuote(table);
    QuotedNameHasTwoQuotes(ColumnsQueryHead, table);
    QuotedNameIsDelimited(ColumnsQueryHead, table);
  }

  /**
    The response to a column-discovery request, and the query the handler
    handed on for execution, if any.
   */
  datatype Handled = Handled(reply: Reply, issued: Option<string>)

  /** `result.recordset.map(row => row.COLUMN_NAME)`. */
  function ColumnNames(rows: seq<Db.Record>): (names: seq<Option<Value>>)
    ensures |names| == |rows|
    ensures forall k :: 0 <= k < |rows| ==> names[k] == Get(rows[k], "COLUMN_NAME")
  {
    seq(|rows|, k requires 0 <= k < |rows| => Get(rows[k], "COLUMN_NAME"))
  }

  /** The reply to a query that was issued: the column names, or 500 with the error message. */
  function ColumnsReply(result: Result<seq<Db.Record>>): Reply {
    match result
    case Success(rows) => Reply(200, Names(ColumnNames(rows)))
    case Failure(msg) => Reply(500, Error(msg))
  }

  /**
    `GET /db/columns/:table`. A rejected name is answered 400 without any
    query; an accepted one is handed to `Db.Query`, whose pool answers with
    `response`.
   */
  function GetColumns(db: Db.DbState, table: string, response: Result<seq<Db.Record>>): (h: Handled)
    ensures !ValidTableName(table) <==> h.reply == Reply(400, Error("Invalid table name"))
    ensures !ValidTableName(table) <==> h.issued.None?
    ensures ValidTableName(table) ==> h.issued == Some(ColumnsQuery(table))
    ensures db.mockMode && ValidTableName(table) ==> h.reply == Reply(200, Names([]))
    ensures ValidTableName(table) && !db.mockMode && db.pool.None? ==>
      h.reply == Reply(500, Error("Database not connected"))
    ensures ValidTableName(table) && !db.mockMode && db.pool.Some? && response.Failure? ==>
      h.reply == Reply(500, Error(response.error))
    ensures ValidTableName(table) && !db.mockMode && db.pool.Some? && response.Success? ==>
      && h.reply.status == 200 && h.reply.body.Names?
      && |h.reply.body.names| == |response.value|
      && forall k :: 0 <= k < |response.value| ==>
           h.reply.body.names[k] == Get(response.value[k], "COLUMN_NAME")
  {
    if !ValidTableName(table) then Handled(Reply(400, Error("Invalid table name")), None)
    else
      var q := ColumnsQuery(table);
      Handled(ColumnsReply(Db.Query(db, q, response)), Some(q))
  }

  /** Whether a pool built from the request's own `config` connected, or the error it threw. */
  datatype Connection = Connected | ConnectFailed(message: string)

  /**
    `POST /db/columns`. The guard tests `String(table)`, so an absent table
    name is tested, and queried, as the text "undefined". An accepted name is
    queried only once a pool built from the request's `config` has connected
    (`connection`); `response` is what that pool answers.
   */
  function PostColumns(table: Option<Value>, connection: Connection,
                       response: Result<seq<Db.Record>>): (h: Handled)
    ensures !ValidTableName(Render(table)) <==> h.reply == Reply(400, Error("Invalid table name"))
    ensures h.issued.Some? <==> ValidTableName(Render(table)) && connection == Connected
    ensures h.issued.Some? ==> h.issued.value == ColumnsQuery(Render(table))
    ensures ValidTableName(Render(table)) && connection.ConnectFailed? ==>
      h.reply == Reply(500, Error(connection.message))
    ensures ValidTableName(Render(table)) && connection == Connected && response.Failure? ==>
      h.reply == Reply(500, Error(response.error))
    ensures ValidTableName(Render(table)) && connection == Connected && response.Success? ==>
      && h.reply.status == 200 && h.reply.body.Names?
      && |h.reply.body.names| == |response.value|
      && forall k :: 0 <= k < |response.value| ==>
           h.reply.body.names[k] == Get(response.value[k], "COLUMN_NAME")
  {
    var name := Render(table);
    if !ValidTableName(name) then Handled(Reply(400, Error("Invalid table name")), None)
    else
      match connection
      case ConnectFailed(msg) => Handled(Reply(500, Error(msg)), None)
      case Connected => Handled(ColumnsReply(response), Some(ColumnsQuery(name)))
  }

  /**
    A request without a table name passes the guard: it is not answered 400,
    and once its pool connects it asks for the columns of table 'undefined'.
   */
  lemma MissingTableIsQueriedAsUndefined(connection: Connection, response: Result<seq<Db.Record>>)
    ensures PostColumns(None, connection, response).reply.status != 400
    ensures connection == Connected ==>
      PostColumns(None, connection, response).issued == Some(ColumnsQuery("undefined"))
  {
    assert ValidTableName("undefined") by {
      var s := "undefined";
      assert forall i :: 0 <= i < |s| ==> 'a' <= s[i] <= 'z';
    }
  }

  // ---------------------------------------------------------------------------
  // POST /settings
  // ---------------------------------------------------------------------------

  /**
    The fields of a settings request. `mockMode` is `None` only when the
    property is absent (the route tests `!== undefined`); `dbConfig` is `None`
    when it is absent or otherwise falsy; `pollingInterval` is `None` when
    absent.
   */
  datatype SettingsBody = SettingsBody(
    dbConfig: Option<Db.Config>,
    mockMode: Option<bool>,
    pollingInterval: Option<int>)

  /** The database module and the polling service, the two owners of the settings. */
  datatype App = App(db: Db.DbState, service: Alerts.Service)

  datatype Applied = Applied(reply: Reply, app: App)

  /**
    `POST /settings`: mock mode is set when present, the settings object is
    merged when present, and the schedule is changed only for a truthy
    (non-zero) interval. `mockAttempt` and `configAttempt` are the outcomes of
    the reconnects the first two steps may make. The schedule change itself
    leaves the alert store alone; the poll the timer restart runs is not part
    of this model.
   */
  function PostSettings(app: App, body: SettingsBody, mockAttempt: Option<Db.Pool>,
                        configAttempt: Option<Db.Pool>): (r: Applied)
    ensures r.reply == Reply(200, Ok)
    ensures r.app.service.store == app.service.store
    ensures body.mockMode.None? ==> r.app.db.mockMode == app.db.mockMode
    ensures body.mockMode.Some? ==> r.app.db.mockMode == body.mockMode.value
    ensures body.dbConfig.None? ==> r.app.db.config == app.db.config
    ensures body.dbConfig.Some? ==> r.app.db.config == Db.Merge(app.db.config, body.dbConfig.value)
    ensures body.pollingInterval.None? || body.pollingInterval == Some(0) ==>
      r.app.service.schedule == app.service.schedule
    ensures body.pollingInterval.Some? && body.pollingInterval.value != 0 ==>
      Alerts.CronMinutes(r.app.service.schedule) == body.pollingInterval
    ensures body.pollingInterval.Some? && body.pollingInterval.value != 0 ==>
      r.app.service == Alerts.SetPollingInterval(app.service, body.pollingInterval.value)
    ensures body.pollingInterval.None? || body.pollingInterval == Some(0) ==>
      r.app.service == app.service
    ensures body.mockMode.None? && body.dbConfig.None? ==> r.app.db == app.db
    ensures body.mockMode.Some? && body.dbConfig.None? ==>
      r.app.db == Db.SetMockMode(app.db, body.mockMode.value, mockAttempt)
    ensures body.mockMode.None? && body.dbConfig.Some? ==>
      r.app.db == Db.SetConfig(app.db, body.dbConfig.value, configAttempt)
    ensures body.mockMode.Some? && body.dbConfig.Some? ==>
      r.app.db == Db.SetConfig(Db.SetMockMode(app.db, body.mockMode.value, mockAttempt),
                               body.dbConfig.value, configAttempt)
  {
    var db1 :=
      if body.mockMode.Some? then Db.SetMockMode(app.db, body.mockMode.value, mockAttempt) else app.db;
    var db2 :=
      if body.dbConfig.Some? then Db.SetConfig(db1, body.dbConfig.value, configAttempt) else db1;
    var svc :=
      if body.pollingInterval.Some? && body.pollingInterval.value != 0
      then Alerts.SetPollingInterval(app.service, body.pollingInterval.value)
      else app.service;
    Applied(Reply(200, Ok), App(db2, svc))
  }
}

=== FILE: dashboard.dfy ===
/**
  The urgency badge of the alert dashboard (client/src/pages/Dashboard.jsx):
  the time since the sale, in hours, picks one of three ribbons. Both clocks
  are integer milliseconds here; the hours are the exact quotient by 36e5.
 */
module Dashboard {

  /** 36e5, the milliseconds in an hour. */
  const HourMs: int := 3_600_000

  datatype Urgency = Critical | Standard | Aging

  /** Larger is more urgent. */
  function Rank(u: Urgency): nat {
    match u
    case Critical => 2
    case Standard => 1
    case Aging => 0
  }

  /** `(now - soldTime) / 36e5` compared against 1 and 4 hours. */
  function UrgencyOf(now: int, soldTime: int): (u: Urgency)
    ensures u == Critical <==> now - soldTime < HourMs
    ensures u == Standard <==> HourMs <= now - soldTime < 4 * HourMs
    ensures u == Aging <==> 4 * HourMs <= now - soldTime
  {
    var hours := (now - soldTime) as real / 3600000.0;
    if hours < 1.0 then Critical else if hours < 4.0 then Standard else Aging
  }

  datatype Badge = Badge(color: string, text: string)

  function BadgeOf(u: Urgency): Badge {
    match u
    case Critical => Badge("red", "Critical (< 1h)")
    case Standard => Badge("gold", "Standard (1-4h)")
    case Aging => Badge("default", "Aging (> 4h)")
  }

  /** `getBadgeStatus(soldTime)` read at time `now`. */
  function GetBadgeStatus(now: int, soldTime: int): (b: Badge)
    ensures b == Badge("red", "Critical (< 1h)") <==> now - soldTime < HourMs
    ensures b == Badge("gold", "Standard (1-4h)") <==> HourMs <= now - soldTime < 4 * HourMs
    ensures b == Badge("default", "Aging (> 4h)") <==> 4 * HourMs <= now - soldTime
  {
    BadgeOf(UrgencyOf(now, soldTime))
  }

  /** A later reading, or an earlier sale, is never more urgent. */
  lemma UrgencyMonotone(now: int, sold1: int, sold2: int)
    requires now - sold1 <= now - sold2
    ensures Rank(UrgencyOf(now, sold1)) >= Rank(UrgencyOf(now, sold2))
  {
  }

  /** A sale stamped in the future (negative elapsed time) is shown as critical. */
  lemma FutureSaleIsCritical(now: int, soldTime: int)
    requires soldTime > now
    ensures GetBadgeStatus(now, soldTime).color == "red"
  {
  }
}

=== FILE: db.dfy ===
/**
  The database settings and connection guards of server/config/db.js.

  The connection pool is opaque: a `Pool` is a handle that is open or closed,
  and whether `sql.connect` succeeds, and what an open pool answers to a query,
  are parameters.
 */
module Db {
  import opened Results
  import opened JsValue

  /** A connection pool handle; `open` turns false once `pool.close()` has been called. */
  datatype Pool = Pool(handle: nat, open: bool)

  /** The settings object, a plain JavaScript object. */
  type Config = map<string, Value>

  /** One row of a recordset. */
  type Record = map<string, Value>

  const DefaultOptions: Value := Obj(map["encrypt" := Bool(true), "trustServerCertificate" := Bool(true)])

  /** The settings the module starts with: empty credentials, encryption on. */
  const InitialConfig: Config := map[
    "user" := Str(""), "password" := Str(""), "server" := Str(""), "database" := Str(""),
    "options" := DefaultOptions]

  /** The module's three variables: `pool`, `mockMode` and `dbConfig`. */
  datatype DbState = DbState(pool: Option<Pool>, mockMode: bool, config: Config)

  const InitialDb := DbState(None, false, InitialConfig)

  /** Whether the settings name both a server and a database (both truthy). */
  predicate HasTarget(config: Config) {
    Truthy(Get(config, "server")) && Truthy(Get(config, "database"))
  }

  /**
    `connectDB()`. Nothing happens in mock mode or when the server or the
    database is missing. Otherwise `sql.connect` is tried: `attempt` is the pool
    it yields, or `None` when it throws (the error is logged and swallowed,
    leaving `pool` as it was).
   */
  function ConnectDB(st: DbState, attempt: Option<Pool>): (r: DbState)
    ensures r.mockMode == st.mockMode && r.config == st.config
    ensures st.mockMode ==> r == st
    ensures !HasTarget(st.config) ==> r == st
    ensures !st.mockMode && HasTarget(st.config) && attempt.Some? ==> r.pool == attempt
    ensures r.pool != st.pool ==> r.pool == attempt && attempt.Some?
  {
    if st.mockMode then st
    else if !Truthy(Get(st.config, "server")) || !Truthy(Get(st.config, "database")) then st
    else
      match attempt
      case Some(p) => st.(pool := Some(p))
      case None => st
  }

  /** `{ ...config, ...patch }`: a shallow merge in which the patch wins. */
  function Merge(config: Config, patch: Config): (r: Config)
    ensures r.Keys == config.Keys + patch.Keys
    ensures forall k :: k in patch ==> r[k] == patch[k]
    ensures forall k :: k in config && k !in patch ==> r[k] == config[k]
  {
    config + patch
  }

  /** Merging the same patch twice is merging it once. */
  lemma MergeIdempotent(config: Config, patch: Config)
    ensures Merge(Merge(config, patch), patch) == Merge(config, patch)
  {
  }

  /**
    The merge is shallow: a patch carrying `options` replaces the whole nested
    object, so a patch `{options: {encrypt: false}}` drops
    `trustServerCertificate` from the initial settings.
   */
  lemma MergeReplacesNestedOptions()
    ensures
      var patch := map["options" := Obj(map["encrypt" := Bool(false)])];
      var merged := Merge(InitialConfig, patch);
      && "options" in merged
      && merged["options"].Obj?
      && "trustServerCertificate" !in merged["options"].fields
  {
    var patch := map["options" := Obj(map["encrypt" := Bool(false)])];
    assert Merge(InitialConfig, patch)["options"] == patch["options"];
  }

  /**
    `setConfig(newConfig)`: merge the patch, close the current pool if there is
    one (the variable keeps referring to it), then `connectDB()`.
   */
  function SetConfig(st: DbState, patch: Config, attempt: Option<Pool>): (r: DbState)
    ensures r.config == Merge(st.config, patch)
    ensures r.mockMode == st.mockMode
    ensures st.pool.None? && (st.mockMode || !HasTarget(r.config) || attempt.None?) ==> r.pool.None?
    ensures st.pool.Some? && (st.mockMode || !HasTarget(r.config) || attempt.None?) ==>
      r.pool == Some(st.pool.value.(open := false))
    ensures !st.mockMode && HasTarget(r.config) && attempt.Some? ==> r.pool == attempt
  {
    var merged := st.(config := Merge(st.config, patch));
    var closed :=
      if merged.pool.Some? then merged.(pool := Some(merged.pool.value.(open := false)))
      else merged;
    ConnectDB(closed, attempt)
  }

  /**
    `setMockMode(enabled)`. Turning mock mode on closes and forgets the pool;
    turning it off calls `connectDB()`, whose outcome is `attempt`.
   */
  function SetMockMode(st: DbState, enabled: bool, attempt: Option<Pool>): (r: DbState)
    ensures r.mockMode == enabled
    ensures r.config == st.config
    ensures enabled ==> r.pool.None?
    ensures !enabled ==> r == ConnectDB(st.(mockMode := false), attempt)
  {
    if enabled && st.pool.Some? then DbState(None, true, st.config)
    else if !enabled then ConnectDB(st.(mockMode := false), attempt)
    else st.(mockMode := true)
  }

  /**
    `query(queryString)`. In mock mode every query gets an empty recordset;
    with no pool it fails with "Database not connected"; otherwise the pool
    answers, and `response` is that answer.
   */
  function Query(st: DbState, queryString: string, response: Result<seq<Record>>): (r: Result<seq<Record>>)
    ensures st.mockMode ==> r == Success([])
    ensures !st.mockMode && st.pool.None? ==> r == Failure("Database not connected")
    ensures !st.mockMode && st.pool.Some? ==> r == response
  {
    if st.mockMode then Success([])
    else if st.pool.None? then Failure("Database not connected")
    else response
  }

  /**
    After mock mode is switched on, the query text and the pool's answer no
    longer matter: every query yields an empty recordset.
   */
  lemma MockModeAnswersEmpty(st: DbState, attempt: Option<Pool>, q1: string, q2: string,
                             a1: Result<seq<Record>>, a2: Result<seq<Record>>)
    ensures
      var m := SetMockMode(st, true, attempt);
      Query(m, q1, a1) == Query(m, q2, a2) == Success([])
  {
  }

  /**
    Switching mock mode on and then off again, when the reconnect fails,
    leaves no pool: queries fail with "Database not connected".
   */
  lemma MockRoundTripForgetsPool(st: DbState, a1: Option<Pool>, q: string, answer: Result<seq<Record>>)
    ensures
      var off := SetMockMode(SetMockMode(st, true, a1), false, None);
      !off.mockMode && Query(off, q, answer) == Failure("Database not connected")
  {
  }

  /**
    `setConfig` closes the old pool but does not clear the variable, so when
    the reconnect fails the closed pool is still handed every query instead of
    the "Database not connected" failure.
   */
  lemma FailedReconnectKeepsClosedPool(st: DbState, patch: Config, q: string, answer: Result<seq<Record>>)
    requires !st.mockMode && st.pool.Some?
    ensures
      var r := SetConfig(st, patch, None);
      && r.pool.Some? && !r.pool.value.open
      && Query(r, q, answer) == answer
  {
  }

  /** Initially the database is neither in mock mode nor configured, so `connectDB()` does nothing. */
  lemma InitialConnectIsSkipped(attempt: Option<Pool>)
    ensures ConnectDB(InitialDb, attempt) == InitialDb
  {
    assert Get(InitialConfig, "server") == Some(Str(""));
  }
}

=== FILE: decimal.dfy ===
/**
  Decimal text for integers, as JavaScript writes a safe integer into a template
  literal, together with its inverse (the parser) and the round trip between them.
 */
module Decimal {
  import opened Results

  predicate IsDigit(c: char) {
    '0' <= c <= '9'
  }

  predicate IsDigits(s: string) {
    forall i :: 0 <= i < |s| ==> IsDigit(s[i])
  }

  function DigitChar(d: nat): char
    requires d < 10
  {
    (('0' as int) + d) as char
  }

  function DigitValue(c: char): nat
    requires IsDigit(c)
  {
    c as int - '0' as int
  }

  /** The shortest decimal numeral of `n`, most significant digit first. */
  function NatToString(n: nat): (s: string)
    ensures |s| > 0 && IsDigits(s)
    ensures |s| > 1 ==> s[0] != '0'
  {
    if n < 10 then [DigitChar(n)] else NatToString(n / 10) + [DigitChar(n % 10)]
  }

  /** The value of a run of decimal digits (the empty run is 0). */
  function DigitsValue(s: string): nat
    requires IsDigits(s)
  {
    if |s| == 0 then 0 else DigitsValue(s[..|s| - 1]) * 10 + DigitValue(s[|s| - 1])
  }

  /** `String(i)` for an integer `i`: a minus sign and the digits of `|i|`. */
  function IntToString(i: int): (s: string)
    ensures |s| > 0
    ensures i >= 0 <==> IsDigits(s)
  {
    if i < 0 then
      var s := "-" + NatToString(-i);
      assert !IsDigit(s[0]);
      s
    else NatToString(i)
  }

  /** Reads an optional minus sign followed by at least one digit. */
  function ParseInt(s: string): Option<int> {
    if |s| > 0 && s[0] == '-' then
      if |s| > 1 && IsDigits(s[1..]) then
        var magnitude: int := DigitsValue(s[1..]);
        Some(-magnitude)
      else None
    else if |s| > 0 && IsDigits(s) then Some(DigitsValue(s) as int)
    else None
  }

  lemma {:induction false} DigitsOfNat(n: nat)
    ensures DigitsValue(NatToString(n)) == n
  {
    if n >= 10 {
      var s := NatToString(n);
      var init := NatToString(n / 10);
      assert s == init + [DigitChar(n % 10)];
      assert s[..|s| - 1] == init;
      DigitsOfNat(n / 10);
    }
  }

  /** Parsing the rendering of any integer gives the integer back. */
  lemma ParseIntToString(i: int)
    ensures ParseInt(IntToString(i)) == Some(i)
  {
    if i < 0 {
      var s := IntToString(i);
      assert s[1..] == NatToString(-i);
      DigitsOfNat(-i);
    } else {
      DigitsOfNat(i);
    }
  }

  /** Distinct integers render to distinct text. */
  lemma IntToStringInjective(i: int, j: int)
    requires IntToString(i) == IntToString(j)
    ensures i == j
  {
    ParseIntToString(i);
    ParseIntToString(j);
  }
}

=== FILE: jsvalue.dfy ===
/**
  The JavaScript values that reach the modelled code: column values of a fetched
  row and fields of a parsed JSON request body. An absent property (`undefined`)
  is `None` of `Option<Value>`; numbers are modelled as integers. Arrays are
  not modelled, so neither is `String(["sales"])`, which is `"sales"`.
 */
module JsValue {
  import opened Results
  import Decimal

  datatype Value =
    | Null
    | Bool(b: bool)
    | Num(n: int)
    | Str(s: string)
    | Obj(fields: map<string, Value>)

  /** JavaScript truthiness of a possibly absent value. */
  predicate Truthy(v: Option<Value>) {
    match v
    case None => false
    case Some(Null) => false
    case Some(Bool(b)) => b
    case Some(Num(n)) => n != 0
    case Some(Str(s)) => s != ""
    case Some(Obj(_)) => true
  }

  /** `String(v)`, which is also what `${v}` splices into a template literal. */
  function Render(v: Option<Value>): string {
    match v
    case None => "undefined"
    case Some(Null) => "null"
    case Some(Bool(b)) => if b then "true" else "false"
    case Some(Num(n)) => Decimal.IntToString(n)
    case Some(Str(s)) => s
    case Some(Obj(_)) => "[object Object]"
  }

  /** Property lookup `o[key]`: `undefined` when the key is absent. */
  function Get(fields: map<string, Value>, key: string): Option<Value> {
    if key in fields then Some(fields[key]) else None
  }
}

=== FILE: results.dfy ===
/** Failure-carrying wrappers shared by every module of the model. */
module Results {

  /** A value that may be absent; in the JavaScript source, `None` stands for `undefined`. */
  datatype Option<+T> = None | Some(value: T)

  /** The outcome of an operation that may throw; `Failure` carries the error message. */
  datatype Result<+T> = Success(value: T) | Failure(error: string)
}

=== FILE: text.dfy ===
/** Searching and counting one character in a string. */
module Text {

  /** The position of the first `c` in `s`, or `|s|` when `s` has none. */
  function IndexOf(s: string, c: char): (k: nat)
    ensures k <= |s|
    ensures k < |s| ==> s[k] == c
    ensures forall j :: 0 <= j < k ==> s[j] != c
  {
    if |s| == 0 || s[0] == c then 0 else 1 + IndexOf(s[1..], c)
  }

  /** In `a + [c] + x` with no `c` in `a`, the first `c` is the one after `a`. */
  lemma IndexOfJoin(a: string, c: char, x: string)
    requires c !in a
    ensures IndexOf(a + [c] + x, c) == |a|
  {
    var s := a + [c] + x;
    assert s[|a|] == c;
    assert forall j :: 0 <= j < |a| ==> s[j] == a[j];
  }

  /** Joining a head free of `c` to a tail with `c` can be undone at the first `c`. */
  lemma SplitAtFirst(a: string, x: string, b: string, y: string, c: char)
    requires c !in a && c !in b
    requires a + [c] + x == b + [c] + y
    ensures a == b && x == y
  {
    var s := a + [c] + x;
    IndexOfJoin(a, c, x);
    IndexOfJoin(b, c, y);
    assert a == s[..|a|];
    assert b == (b + [c] + y)[..|b|];
    assert x == s[|a| + 1..];
    assert y == (b + [c] + y)[|b| + 1..];
  }

  /** The number of occurrences of `c` in `s`. */
  function Count(s: string, c: char): (n: nat)
    ensures n <= |s|
    ensures n == 0 <==> c !in s
  {
    if |s| == 0 then 0 else (if s[0] == c then 1 else 0) + Count(s[1..], c)
  }

  lemma {:induction false} CountConcat(a: string, b: string, c: char)
    ensures Count(a + b, c) == Count(a, c) + Count(b, c)
    decreases |a|
  {
    if |a| > 0 {
      assert (a + b)[1..] == a[1..] + b;
      CountConcat(a[1..], b, c);
    } else {
      assert a + b == b;
    }
  }
}

=== FILE: wizard.dfy ===
/**
  The three-step configuration wizard (client/src/pages/Settings.jsx):
  Connection, Mapping and Preferences, the buttons each step shows, and the
  settings request the last step saves.
 */
module Wizard {
  import opened Results
  import opened JsValue
  import Db
  import Api
  import Alerts

  /** Connection, Mapping, Preferences. */
  const StepCount := 3
  const LastStep := StepCount - 1

  datatype Button = Previous | NextStep | Save

  /** Previous from the second step on, Next before the last step, Save on the last. */
  predicate Shown(step: int, b: Button) {
    match b
    case Previous => step > 0
    case NextStep => step < LastStep
    case Save => step == LastStep
  }

  /**
    The step after pressing `b`, or `None` when `b` is not on screen. `next()`
    leaves the first step only when the connection test succeeds
    (`connectionOk`); `prev()` goes back one step; Save stays put.
   */
  function Press(step: int, b: Button, connectionOk: bool): (r: Option<int>)
    ensures r.Some? <==> Shown(step, b)
    ensures r.Some? && 0 <= step <= LastStep ==> 0 <= r.value <= LastStep
    ensures r.Some? && b == Previous ==> r.value == step - 1
    ensures r.Some? && b == NextStep && step != 0 ==> r.value == step + 1
    ensures r.Some? && b == NextStep && step == 0 ==> r.value == (if connectionOk then 1 else 0)
    ensures r.Some? && b == Save ==> r.value == step
  {
    if !Shown(step, b) then None
    else
      match b
      case Previous => Some(step - 1)
      case NextStep => if step == 0 then (if connectionOk then Some(step + 1) else Some(step)) else Some(step + 1)
      case Save => Some(step)
  }

  /** A click on `button`; `connectionOk` is the result of the connection test it may run. */
  datatype Click = Click(button: Button, connectionOk: bool)

  /** The step after a session of clicks; a click on a hidden button has no effect. */
  function Run(step: int, clicks: seq<Click>): (r: int)
    ensures 0 <= step <= LastStep ==> 0 <= r <= LastStep
    decreases |clicks|
  {
    if |clicks| == 0 then step
    else
      var next := Press(step, clicks[0].button, clicks[0].connectionOk);
      Run(if next.Some? then next.value else step, clicks[1..])
  }

  /** On every step exactly one of Next and Save is offered, and Previous everywhere but the first. */
  lemma ButtonsPartitionSteps(step: int)
    requires 0 <= step <= LastStep
    ensures Shown(step, NextStep) != Shown(step, Save)
    ensures Shown(step, Previous) <==> step != 0
  {
  }

  /** The wizard leaves the connection step only through a Next click whose connection test succeeded. */
  lemma {:induction false} LeavingFirstStepNeedsConnection(clicks: seq<Click>)
    ensures Run(0, clicks) != 0 ==>
      exists k :: 0 <= k < |clicks| && clicks[k] == Click(NextStep, true)
    decreases |clicks|
  {
    if |clicks| > 0 && clicks[0] != Click(NextStep, true) {
      assert Run(0, clicks) == Run(0, clicks[1..]);
      LeavingFirstStepNeedsConnection(clicks[1..]);
      if Run(0, clicks) != 0 {
        var k :| 0 <= k < |clicks[1..]| && clicks[1..][k] == Click(NextStep, true);
        assert clicks[k + 1] == Click(NextStep, true);
      }
    }
  }

  // ---------------------------------------------------------------------------
  // handleSave
  // ---------------------------------------------------------------------------

  /**
    The form store: the four connection fields of the first step and the two
    preferences of the last; `None` is a field that holds nothing.
   */
  datatype Form = Form(
    user: Option<Value>,
    password: Option<Value>,
    server: Option<Value>,
    database: Option<Value>,
    mockMode: Option<bool>,
    pollingInterval: Option<int>)

  /**
    `form.getFieldsValue()` with no argument, on `step`: antd returns only the
    fields whose items are mounted, and only the current step's items are.
   */
  function MountedFields(f: Form, step: int): Form {
    Form(
      if step == 0 then f.user else None,
      if step == 0 then f.password else None,
      if step == 0 then f.server else None,
      if step == 0 then f.database else None,
      if step == LastStep then f.mockMode else None,
      if step == LastStep then f.pollingInterval else None)
  }

  /** What the number input (min 1, max 60) commits for a typed value. */
  function CommitInterval(typed: int): (n: int)
    ensures 1 <= n <= 60
    ensures 1 <= typed <= 60 ==> n == typed
  {
    if typed < 1 then 1 else if typed > 60 then 60 else typed
  }

  /** The object as it reaches the server: JSON drops properties that are `undefined`. */
  function Defined(fields: map<string, Option<Value>>): (m: map<string, Value>)
    ensures forall k :: k in m <==> k in fields && fields[k].Some?
    ensures forall k :: k in m ==> m[k] == fields[k].value
  {
    map k | k in fields && fields[k].Some? :: fields[k].value
  }

  /**
    The body `handleSave` posts. Save is shown only on the last step, so the
    form values it reads are that step's: the connection fields come back
    undefined and JSON drops them, leaving a settings object with just the
    fixed options.
   */
  function SaveRequest(f: Form): (body: Api.SettingsBody)
    ensures body.dbConfig == Some(map["options" := Db.DefaultOptions])
    ensures body.mockMode == f.mockMode && body.pollingInterval == f.pollingInterval
  {
    var values := MountedFields(f, LastStep);
    var dbConfig := Defined(map[
      "user" := values.user, "password" := values.password, "server" := values.server,
      "database" := values.database, "options" := Some(Db.DefaultOptions)]);
    assert dbConfig.Keys == {"options"} && dbConfig["options"] == Db.DefaultOptions;
    assert dbConfig == map["options" := Db.DefaultOptions];
    Api.SettingsBody(Some(dbConfig), values.mockMode, values.pollingInterval)
  }

  /**
    Whatever the form holds, saving it leaves the server's settings with
    encryption and certificate trust on.
   */
  lemma SavedSettingsKeepEncryption(app: Api.App, f: Form, a1: Option<Db.Pool>, a2: Option<Db.Pool>)
    ensures
      var saved := Api.PostSettings(app, SaveRequest(f), a1, a2).app;
      Get(saved.db.config, "options") == Some(Db.DefaultOptions)
  {
    var body := SaveRequest(f);
    assert "options" in body.dbConfig.value;
  }

  /**
    Saving never changes where the server connects: every setting other than
    `options` keeps the value it had before, whatever the first step holds.
   */
  lemma SaveKeepsConnectionTarget(app: Api.App, f: Form, a1: Option<Db.Pool>, a2: Option<Db.Pool>, key: string)
    requires key != "options"
    ensures
      var saved := Api.PostSettings(app, SaveRequest(f), a1, a2).app;
      Get(saved.db.config, key) == Get(app.db.config, key)
  {
    var patch := SaveRequest(f).dbConfig.value;
    assert key !in patch;
  }

  /** An interval that went through the number input reaches the schedule unchanged and within [1, 60]. */
  lemma SavedIntervalWithinBounds(app: Api.App, f: Form, typed: int, a1: Option<Db.Pool>, a2: Option<Db.Pool>)
    requires f.pollingInterval == Some(CommitInterval(typed))
    ensures
      var saved := Api.PostSettings(app, SaveRequest(f), a1, a2).app;
      var n := Alerts.CronMinutes(saved.service.schedule);
      n == f.pollingInterval && 1 <= n.value <= 60
  {
  }
}
